=== FILE: README.md ===
# File storage access control and file lifecycle, in Dafny

This project models the core of a document-storage service. The service
gates upload, lookup, download and deletion of files by role (USER, MANAGER,
ADMIN) and by file visibility (PRIVATE, DEPARTMENT, PUBLIC). It keeps a
catalog of file records beside a blob store, and a background worker fills in
each file's extracted document metadata after upload. The Dafny model covers
these parts:

- the role-indexed upload tables and the validation pipeline, in `AccessPolicy`;
- the read check, the delete rule and the storage-path layout, also in `AccessPolicy`;
- the two repositories as maps from id to row, in `FileRepository` and
  `UserRepository`, with the table scan they share in `Tables`;
- the file lifecycle service, in `FileService`. It is a pure function from
  the catalog, the blob store, the job queue and the generated blob keys to an
  operation's result and the new state;
- the user-administration rules, in `UserService`;
- the metadata-extraction job, in `MetadataWorker`. The blob fetch and the
  PDF and word-processing parsers are given to it as function parameters;
- the download-filename sanitiser and the error-to-status table of the HTTP
  layer, in `HttpMapping`;
- properties that span several operations, in `SystemInvariants`, and three
  concrete runs, in `Scenarios`.

String helpers live in `Text`. They cover `split('.')[-1]`, ASCII
lower-casing, ASCII projection and decimal rendering.

Inputs from the environment are passed as parameters:

- The random blob key of an upload is `key`. `FileService.FreshKey` asks that it was never generated before and, like the text of a uuid4, holds no slash. `FileService.KeysRecorded` is the matching storage invariant: every row's blob path and every stored blob splits back into a generated key.
- The blob store's acceptance of a write is `putOk`.
- Success of the enqueue call is `enqueueOk`.
- Whether the blob store removed an object on delete is `blobRemoved`.
- The password hash is `hashedPassword`.
- The authenticated caller is a `User` value. `SystemInvariants.Authenticated`
  says it is the stored row.

Behaviours of the code worth noting:

- Delete first runs the read check (`get_file_by_id`) and then the delete
  rule. A manager therefore cannot delete another user's PRIVATE file, even in
  the manager's own department.
- A download increments the counter before the blob is read. A failed blob
  read is an uncaught exception, so the route answers 500, not 404.
- The upload does not catch a failed enqueue. The catalog row and the blob are
  already committed when the route answers 500.
- Sizes of 0 bytes are accepted. Nothing checks for a positive size.

## Model

| member | source | states |
|---|---|---|
| Text.LastSegment | apps/file_storage/service/file_service.py:36 | `split('.')[-1]` is the unique suffix of the name that holds no dot and is either the whole name or preceded by a dot |
| Text.LastSegmentAfterSep | apps/file_storage/service/file_service.py:36 | whatever precedes the last separator, the last segment is the text after it |
| Text.SplitLastInverse | apps/file_storage/service/file_service.py:48 | splitting at the last separator undoes joining two texts with it when the second holds no separator |
| Text.AsciiLower | apps/file_storage/service/file_service.py:36 | lower-casing keeps the length and maps each character through ASCII case folding |
| Text.DropNonAscii | apps/file_storage/infra/api/endpoints.py:117 | the result is pure ASCII, keeps every ASCII character of the input and no other, and is the input itself when the input is all ASCII |
| Text.DropNonAsciiChar | apps/file_storage/infra/api/endpoints.py:117 | a single character is kept exactly when it is ASCII |
| Text.DropNonAsciiAppend | apps/file_storage/infra/api/endpoints.py:117 | the projection distributes over concatenation, so kept characters keep their order and multiplicity |
| Text.Decimal | apps/file_storage/infra/api/endpoints.py:119 | `str(id)` is a non-empty run of decimal digits without a leading zero |
| Text.DecimalRoundTrip | apps/file_storage/infra/api/endpoints.py:119 | the decimal rendering of a file id used in `file_<id>` reads back as that id |
| AccessPolicy.AllowedTypes | apps/file_storage/service/file_service.py:14-18 | USER may upload pdf; MANAGER and ADMIN may upload pdf, doc and docx |
| AccessPolicy.SizeLimit | apps/file_storage/service/file_service.py:20-24 | the caps are 10, 50 and 100 MiB for USER, MANAGER and ADMIN |
| AccessPolicy.AllowedVisibilities | apps/file_storage/service/file_service.py:26-30 | USER may create PRIVATE files only; MANAGER and ADMIN any visibility |
| AccessPolicy.EntitlementsGrowWithRole | apps/file_storage/service/file_service.py:14-30 | extension sets, size caps (10, 50 and 100 MiB) and visibility sets only grow from USER to MANAGER to ADMIN |
| AccessPolicy.Extension | apps/file_storage/service/file_service.py:36 | the extension never contains a dot; it is the lower-cased text after the last dot, or the whole lower-cased name when there is no dot |
| AccessPolicy.ExtensionAfterLastDot | apps/file_storage/service/file_service.py:36 | for any name `stem.ext` with a dot-free `ext`, the extension is `ext` lower-cased, whatever dots the stem contains |
| Text.LowerOfLower | apps/file_storage/service/file_service.py:36 | lower-casing text that has no upper-case letter leaves it unchanged |
| AccessPolicy.ValidateUpload | apps/file_storage/service/file_service.py:38-45 | it passes iff the extension, size and visibility are all within the role's entitlement; a type error wins over a size error, which wins over a visibility error |
| AccessPolicy.SizeLimitInclusive | apps/file_storage/service/file_service.py:41-42 | a size exactly at the cap passes the size check and one byte more fails it |
| AccessPolicy.CanAccess | apps/file_storage/service/file_service.py:116-129 | the read check: ADMIN reads everything, PUBLIC files are read by all, DEPARTMENT files by managers and by the file's department, PRIVATE files by their owner only |
| AccessPolicy.DeleteRule | apps/file_storage/service/file_service.py:101-105 | delete is allowed to an ADMIN, to the owner, and to a manager of the file's department |
| AccessPolicy.StoredName | apps/file_storage/service/file_service.py:57 | the stored filename is the key, a dot, then the extension, with nothing else in between |
| AccessPolicy.StoragePath | apps/file_storage/service/file_service.py:47-48 | the blob key is the department, a slash, then the stored name `<key>.<ext>` |
| AccessPolicy.SplitPath | apps/file_storage/service/file_service.py:47-48 | reads a blob path back into department, key and extension; the key holds no slash and the extension no dot |
| AccessPolicy.SplitPathRoundTrip | apps/file_storage/service/file_service.py:47-48 | a path built from a slash-free key and a dot-free extension splits back into exactly its department, key and extension |
| AccessPolicy.StoragePathInjective | apps/file_storage/service/file_service.py:47-48 | two such paths are equal only when department, key and extension all are |
| FileRepository.Create | apps/file_storage/infra/db/repositories.py:71-87 | adds one row under a fresh id holding the passed fields, with count 0 and no metadata; every other row is unchanged |
| Tables.Select | apps/file_storage/infra/db/repositories.py:112-113 | a scan returns every row that satisfies the condition, each once, and no other row |
| Tables.Get | apps/file_storage/infra/db/repositories.py:89-92 | a primary-key lookup yields a row exactly when the id is stored, and then the stored row |
| FileRepository.GetById | apps/file_storage/infra/db/repositories.py:89-92 | returns the row iff the id is stored, and the returned row carries that id |
| UserRepository.GetById | apps/file_storage/infra/db/repositories.py:28-31 | returns the user iff the id is stored, and the returned user carries that id |
| FileRepository.ListingFilter | apps/file_storage/infra/db/repositories.py:95-110 | the WHERE clause per role: everything for ADMIN; PUBLIC, DEPARTMENT and own PRIVATE for MANAGER; PUBLIC, own-department DEPARTMENT and own PRIVATE for USER |
| FileRepository.ListingFilterIsReadCheck | apps/file_storage/infra/db/repositories.py:94-113 | the WHERE clause of the listing query holds of a row exactly when the read check admits it |
| FileRepository.GetAccessibleFiles | apps/file_storage/infra/db/repositories.py:94-113 | lists exactly the stored rows the read check admits, each row once |
| FileRepository.UpdateMetadata | apps/file_storage/infra/db/repositories.py:115-120 | replaces that row's metadata and changes nothing else; it is a no-op for an absent id |
| FileRepository.UpdateMetadataIdempotent | apps/file_storage/infra/db/repositories.py:115-120 | writing the same metadata twice equals writing it once |
| FileRepository.UpdateMetadataLastWriteWins | apps/file_storage/infra/db/repositories.py:119 | a second write erases the first: it overwrites and does not merge |
| FileRepository.IncrementDownloadCount | apps/file_storage/infra/db/repositories.py:122-127 | adds exactly 1 to that row's count and changes nothing else; no count ever decreases |
| FileRepository.Delete | apps/file_storage/infra/db/repositories.py:129-134 | removes only that id; afterwards lookup of the id returns None; absent ids are a no-op |
| UserRepository.Create | apps/file_storage/infra/db/repositories.py:16-26 | adds one user under a fresh id with the requested name, role and department; existing users are unchanged and names stay unique |
| UserRepository.GetByUsername | apps/file_storage/infra/db/repositories.py:33-37 | returns the unique user with that name, or None iff no user has it |
| UserRepository.GetByDepartment | apps/file_storage/infra/db/repositories.py:39-41 | returns exactly the users of that department, each once |
| UserRepository.GetAll | apps/file_storage/infra/db/repositories.py:43-45 | returns every stored user, each once |
| UserRepository.UpdateRole | apps/file_storage/infra/db/repositories.py:47-53 | changes only the target's role; its username, department and every other user are untouched |
| FileService.UploadRow | apps/file_storage/service/file_service.py:56-65 | the arguments of the catalog `create`: stored name, original name, size, content type, visibility, blob path, uploader id and uploader department |
| FileService.UploadFile | apps/file_storage/service/file_service.py:35-71 | a rejected upload changes nothing; a failed blob write gives FileUploadFailed with the catalog unchanged; otherwise exactly one new row exists, owned by the uploader, in the uploader's department, with the requested visibility, named `<key>.<ext>` and stored at `<department>/<key>.<ext>`, and its id is queued for extraction |
| FileService.GetFileById | apps/file_storage/service/file_service.py:77-86 | FileNotFound for an absent id, FileAccessDenied when the read check fails, otherwise the row |
| FileService.DownloadFile | apps/file_storage/service/file_service.py:88-96 | a missing or refused download changes nothing; an admitted one adds exactly 1 to the count before the blob read, even when that read fails, and changes no other field, no other row and not the id sequence |
| FileService.DeleteFile | apps/file_storage/service/file_service.py:98-114 | succeeds iff the file exists and both the read check and the delete rule hold; it removes only that row, then the blob when the store removes it; when the store refuses, the blob store is left as it was |
| FileService.ListAccessibleFiles | apps/file_storage/service/file_service.py:73-75 | returns exactly the stored files the read check admits |
| UserService.CreateUser | apps/file_storage/service/user_service.py:14-27 | a USER caller gets InsufficientPermissions and a taken name gets UserAlreadyExists, both with the store unchanged; otherwise the new user has exactly the requested name, password hash, role and department |
| UserService.ManagerMayCreateAdmin | apps/file_storage/service/user_service.py:14-25 | nothing limits the role a manager assigns: a manager can create an ADMIN |
| UserService.GetUserById | apps/file_storage/service/user_service.py:29-41 | a USER caller is refused whether or not the target exists; a missing target is UserNotFound; a manager is refused targets outside their department |
| UserService.ListUsers | apps/file_storage/service/user_service.py:43-51 | ADMIN gets every user, MANAGER exactly the users of their department, USER gets InsufficientPermissions |
| UserService.UpdateUserRole | apps/file_storage/service/user_service.py:53-64 | only an ADMIN may call it; an absent target gives UserNotFound; on success only the target's role changes |
| MetadataWorker.ErrorMarker | apps/file_storage/worker/tasks.py:49 | a failed fetch or parse is recorded as an object whose only key is `error`, holding the message |
| MetadataWorker.InfoEntry | apps/file_storage/worker/tasks.py:59-62 | an entry of the information dictionary is copied as is; a missing entry or a missing dictionary gives "Unknown" |
| MetadataWorker.PdfMetadata | apps/file_storage/worker/tasks.py:53-65 | a parsed PDF yields exactly five fields: its page count, and author, title, creation date and creator each copied from the matching dictionary entry or "Unknown"; a parser failure yields an error marker |
| MetadataWorker.PdfMetadataRoundTrip | apps/file_storage/worker/tasks.py:53-65 | no error key on success, and the four dictionary entries are read back from the metadata exactly, unless an entry literally reads "Unknown" |
| MetadataWorker.OrUnknown | apps/file_storage/worker/tasks.py:74-75 | Python's `value or "Unknown"`: a present non-empty value is kept; a missing or empty one gives "Unknown" |
| MetadataWorker.DocxMetadata | apps/file_storage/worker/tasks.py:68-79 | a parsed document yields exactly five fields: its paragraph and table counts, its title and author or "Unknown" when missing or empty, and its creation date or "Unknown" when missing; a parser failure yields an error marker |
| MetadataWorker.DocxMetadataRoundTrip | apps/file_storage/worker/tasks.py:68-79 | no error key on success, and title, author and creation date are read back exactly, unless a title or author is empty or a value literally reads "Unknown" |
| MetadataWorker.JobMetadata | apps/file_storage/worker/tasks.py:31-49 | a fetch failure yields an error marker; PDF content goes to the PDF extractor, the two word-processing types to the other one, and any other type yields an empty object |
| MetadataWorker.ExtractMetadata | apps/file_storage/worker/tasks.py:23-50 | an absent id leaves the catalog unchanged; otherwise only that row's metadata changes |
| MetadataWorker.ExtractionAlwaysRecords | apps/file_storage/worker/tasks.py:45-49 | a job on an existing row always ends with metadata present, an error marker when the fetch failed |
| MetadataWorker.ExtractMetadataIdempotent | apps/file_storage/worker/tasks.py:45-49 | running the job twice with the same fetch and parsers equals running it once |
| HttpMapping.SafeFilename | apps/file_storage/infra/api/endpoints.py:117-119 | the download filename is never empty and is pure ASCII; it is the ASCII projection of the original, or `file_<id>` when that is empty; an all-ASCII name passes unchanged |
| HttpMapping.StatusFor | apps/file_storage/infra/api/endpoints.py:17-139 | upload errors map to 400, FileAccessDenied included; on get, download and delete, FileNotFound maps to 404 and FileAccessDenied to 403; on the user routes, InsufficientPermissions maps to 403, UserNotFound to 404 and UserAlreadyExists to 400 |
| HttpMapping.UploadErrorStatus | apps/file_storage/infra/api/endpoints.py:71-82 | every error an upload raises is answered 400, except the uncaught enqueue failure |
| HttpMapping.FileErrorStatus | apps/file_storage/infra/api/endpoints.py:95-139 | get and delete fail only with 404 or 403; download also fails with 500 when the blob read fails |
| HttpMapping.UserErrorStatus | apps/file_storage/infra/api/endpoints.py:32-69 | every error the create, get and re-role user operations raise is answered 400, 403 or 404 |
| SystemInvariants.OwnerCanReadAndDelete | apps/file_storage/service/file_service.py:101-105 | the stored owner of a file can read it and delete it while the owner's department matches the file's |
| SystemInvariants.UploadKeepsOwnersConsistent | apps/file_storage/service/file_service.py:56-65 | an upload copies the uploader's department onto the row, so every owner still matches their files' department |
| SystemInvariants.UserAdministrationKeepsOwnersConsistent | apps/file_storage/service/user_service.py:14-64 | creating a user and changing a role never change an existing user's department |
| SystemInvariants.FileOperationsKeepOwnersConsistent | apps/file_storage/service/file_service.py:88-114 | download and delete keep owners consistent with their files' departments |
| SystemInvariants.ExtractionKeepsOwnersConsistent | apps/file_storage/worker/tasks.py:45-49 | the extraction job rewrites metadata only, so owners stay consistent with their files' departments |
| SystemInvariants.UploaderCanReadAndDeleteUpload | apps/file_storage/service/file_service.py:55-66 | right after an accepted upload the uploader can read and delete the new file |
| SystemInvariants.DeleteIsTerminal | apps/file_storage/service/file_service.py:98-112 | after a successful delete, get, download and delete of that id answer FileNotFound for every user, ADMIN included |
| SystemInvariants.DeletedIdNotReused | apps/file_storage/infra/db/repositories.py:129-134 | a deleted id is not given to a later upload |
| SystemInvariants.DeleteRightCharacterised | apps/file_storage/service/file_service.py:98-108 | delete succeeds exactly when the file exists and the per-tier delete right holds, which combines the read check with the delete rule |
| SystemInvariants.ManagerCannotDeleteOthersPrivateFile | apps/file_storage/service/file_service.py:99-108 | a manager is refused another user's PRIVATE file, even though the delete rule alone would allow it in their own department |
| SystemInvariants.DownloadCountsMonotone | apps/file_storage/service/file_service.py:88-95 | a download never lowers a count; a refused download changes nothing; an admitted download whose blob read fails still counts |
| SystemInvariants.UploadKeepsCounts | apps/file_storage/service/file_service.py:55-66 | an upload never lowers any file's download count |
| SystemInvariants.DeleteAndExtractionKeepCounts | apps/file_storage/service/file_service.py:98-114 | delete and the extraction job never lower any file's download count |
| SystemInvariants.UploadPathFresh | apps/file_storage/service/file_service.py:47-51 | while every stored path splits into a generated key, the blob path of an upload under a fresh uuid is used by no stored row and no blob, so the write never replaces another file's content |
| SystemInvariants.UploadKeepsKeysRecorded | apps/file_storage/service/file_service.py:47-66 | an upload keeps every row path and blob path splitting into a generated key |
| SystemInvariants.DownloadAndDeleteKeepKeysRecorded | apps/file_storage/service/file_service.py:88-114 | download and delete keep every row path and blob path splitting into a generated key |
| SystemInvariants.ExtractionKeepsKeysRecorded | apps/file_storage/worker/tasks.py:45-49 | the extraction job keeps every row path and blob path splitting into a generated key |
| SystemInvariants.ExtractionKeepsAccess | apps/file_storage/worker/tasks.py:45-49 | the extraction job, whatever its outcome, never changes who can read any file |
| Scenarios.DepartmentShareScenario | apps/file_storage/service/file_service.py:123-124 | a manager's department-visible document is refused to another department's user and served to a same-department user |
| Scenarios.UserWordUploadScenario | apps/file_storage/service/file_service.py:15 | a USER uploading a `.docx` gets FileTypeNotAllowed and nothing changes |
| Scenarios.AdminDownloadScenario | apps/file_storage/service/file_service.py:117-118 | a second admin downloads another admin's private PDF, and the count becomes 1 |

## Left out

- HTTP routing, request parsing and response serialisation are not modelled. Only the filename sanitiser and the error-to-status table are.
- Login, token handling and password hashing are not modelled. They are library wrappers. The caller is a given `User`, and the hash is a parameter.
- The object-store client is an abstract map from key to bytes. A write's success is a parameter. In `FileService.DownloadFile`, a read fails exactly when the key is absent; transport errors on that read are not modelled separately.
- MetadataWorker.ExtractMetadata: the worker's blob fetch is the free parameter `Extractors.fetch`, not tied to the blob store. It may fail for a stored key or return bytes for an absent one, so nothing connects an upload's bytes to what the extraction parses.
- Sessions, transactions and the database engine are not modelled. Each repository call is one atomic map update. Two concurrent calls are never interleaved.
- The `created_at` timestamps come from the database clock and are not modelled.
- The uuid4 generator is not modelled. Its output is the parameter `key`, required to differ from every key generated before.
- The Celery queue is a sequence of file ids that an upload appends to. Delivery to workers is not modelled. At-least-once delivery is covered only by the idempotence lemma.
- `str.lower()` is modelled as ASCII case folding only.
- Exception message texts are kept only where they end up in stored data (the metadata error markers). The messages inside the HTTP error bodies are not modelled.
- MetadataWorker.ExtractMetadata: a failure of the metadata write itself is not modelled.
- FileService.DownloadFile: the stream is returned as the whole blob content. Partial reads and an abandoned stream are not modelled.
- FileService.UploadFile: repository calls never fail in the model. The columns' length limits (255 characters for the original filename, 100 for a content type, 50 for a username, 100 for a department) are not enforced. On a database that enforces them, `create` raises after the blob write, which leaves an orphan blob and a 500, where the model returns Ok.
- FileRepository.IncrementDownloadCount: the 32-bit `download_count` column is modelled as an unbounded counter, so its overflow is not modelled.
- FileService.DeleteFile: only a refusal by the blob store (`S3Error`) is swallowed. A transport error on the blob delete propagates as a 500 after the catalog row is already gone; that path is not modelled.
- SystemInvariants.DeletedIdNotReused: the catalog's id sequence is assumed never to rewind, which is what `Catalog.Valid` records. This is a property of the database engine, not of the repository code. A PostgreSQL SERIAL column has it. An SQLite rowid table without AUTOINCREMENT hands the largest id out again once that row is deleted.
- FileRepository.ListingFilterIsReadCheck: the listing compares departments in SQL (`FileModel.department == user_department`), while the read check compares them in Python. The model treats both as exact string equality. That holds for PostgreSQL's deterministic collations and SQLite's default BINARY collation. It fails under a case-insensitive collation, such as MySQL's default `_ci` ones. There, a USER of "eng" is listed a DEPARTMENT file of "Eng" but is refused it by the read check. The database engine is chosen by configuration only.
- UserRepository.GetByUsername: username lookup and the uniqueness constraint are modelled as exact string equality. Under a case-insensitive collation, "Alice" and "alice" would collide. That would change `UserStore.Valid`, `UserRepository.GetByUsername` and the UserAlreadyExists case of `UserService.CreateUser`. The same caveat applies to `UserRepository.GetByDepartment`.

=== FILE: access_policy.dfy ===
/** The pure decision tables of the file service: role-indexed upload
    entitlements, extension derivation, the upload validation pipeline, the
    read check and the delete rule, and the storage-path layout. */
module AccessPolicy {
  import opened Domain
  import Text

  const MiB: nat := 1024 * 1024

  /** Extensions each role may upload. */
  function AllowedTypes(role: Role): set<string> {
    match role
    case USER => {"pdf"}
    case MANAGER => {"pdf", "doc", "docx"}
    case ADMIN => {"pdf", "doc", "docx"}
  }

  /** Largest upload, in bytes, each role may make. */
  function SizeLimit(role: Role): nat {
    match role
    case USER => 10 * MiB
    case MANAGER => 50 * MiB
    case ADMIN => 100 * MiB
  }

  /** Visibilities each role may give a new file. */
  function AllowedVisibilities(role: Role): set<Visibility> {
    match role
    case USER => {PRIVATE}
    case MANAGER => {PRIVATE, DEPARTMENT, PUBLIC}
    case ADMIN => {PRIVATE, DEPARTMENT, PUBLIC}
  }

  /** Whatever a role may upload, every more privileged role may upload too. */
  lemma EntitlementsGrowWithRole()
    ensures AllowedTypes(USER) <= AllowedTypes(MANAGER) <= AllowedTypes(ADMIN)
    ensures SizeLimit(USER) < SizeLimit(MANAGER) < SizeLimit(ADMIN)
    ensures AllowedVisibilities(USER) <= AllowedVisibilities(MANAGER) <= AllowedVisibilities(ADMIN)
    ensures SizeLimit(USER) == 10_485_760 && SizeLimit(MANAGER) == 52_428_800 && SizeLimit(ADMIN) == 104_857_600
  {
  }

  /** The extension of an uploaded file: the lower-cased text after the last
      dot, or the whole lower-cased name when there is no dot. */
  function Extension(filename: string): (ext: string)
    ensures '.' !in ext
    ensures |ext| <= |filename|
    ensures ext == Text.AsciiLower(filename[|filename| - |ext|..])
    ensures |ext| < |filename| ==> filename[|filename| - |ext| - 1] == '.'
    ensures '.' !in filename ==> ext == Text.AsciiLower(filename)
  {
    var seg := Text.LastSegment(filename, '.');
    Text.LowerKeepsNonLetters(seg, '.');
    assert '.' !in filename ==> |seg| == |filename| by {
      if |seg| < |filename| {
        assert filename[|filename| - |seg| - 1] in filename;
      }
    }
    Text.AsciiLower(seg)
  }

  /** Whatever precedes the last dot, the extension is the lower-cased text after it. */
  lemma ExtensionAfterLastDot(stem: string, ext: string)
    requires '.' !in ext
    ensures Extension(stem + "." + ext) == Text.AsciiLower(ext)
  {
    assert stem + "." + ext == stem + ['.'] + ext;
    Text.LastSegmentAfterSep(stem, '.', ext);
  }

  /** The conjunction the validation pipeline decides. */
  predicate UploadPermitted(ext: string, size: nat, visibility: Visibility, role: Role) {
    ext in AllowedTypes(role) && size <= SizeLimit(role) && visibility in AllowedVisibilities(role)
  }

  /** The upload validation pipeline: type, then size, then visibility.
      On success it yields the derived extension. */
  function ValidateUpload(filename: string, size: nat, visibility: Visibility, role: Role): (r: Result<string>)
    ensures r.Ok? <==> UploadPermitted(Extension(filename), size, visibility, role)
    ensures r.Ok? ==> r.value == Extension(filename)
    ensures Extension(filename) !in AllowedTypes(role) ==> r == Err(FileTypeNotAllowed)
    ensures Extension(filename) in AllowedTypes(role) && size > SizeLimit(role) ==> r == Err(FileSizeExceeded)
    ensures (Extension(filename) in AllowedTypes(role) && size <= SizeLimit(role)
             && visibility !in AllowedVisibilities(role)) ==> r == Err(FileAccessDenied)
  {
    var ext := Extension(filename);
    if ext !in AllowedTypes(role) then Err(FileTypeNotAllowed)
    else if size > SizeLimit(role) then Err(FileSizeExceeded)
    else if visibility !in AllowedVisibilities(role) then Err(FileAccessDenied)
    else Ok(ext)
  }

  /** A size exactly at the role's cap passes the size check; one byte more does not. */
  lemma SizeLimitInclusive(filename: string, visibility: Visibility, role: Role)
    requires Extension(filename) in AllowedTypes(role)
    ensures ValidateUpload(filename, SizeLimit(role), visibility, role) != Err(FileSizeExceeded)
    ensures ValidateUpload(filename, SizeLimit(role) + 1, visibility, role) == Err(FileSizeExceeded)
  {
  }

  /** The read check used by get, download and delete: admins see
      everything, public files are seen by all, private files only by their
      owner, department files by managers and by the file's department. */
  predicate CanAccess(f: FileRecord, u: User) {
    if u.role == ADMIN then true
    else match f.visibility
      case PUBLIC => true
      case DEPARTMENT => u.role == MANAGER || f.department == u.department
      case PRIVATE => f.ownerId == u.id
  }

  /** The rule delete applies on top of the read check. */
  predicate DeleteRule(f: FileRecord, u: User) {
    u.role == ADMIN || f.ownerId == u.id || (u.role == MANAGER && f.department == u.department)
  }

  /** The name a stored file gets: `<key>.<ext>`. */
  function StoredName(key: string, ext: string): (name: string)
    ensures |name| == |key| + 1 + |ext|
    ensures name[..|key|] == key && name[|key|] == '.' && name[|key| + 1..] == ext
  {
    key + "." + ext
  }

  /** The blob-store key of an upload: the stored name under the uploader's department. */
  function StoragePath(department: string, key: string, ext: string): (path: string)
    ensures |path| > |department| && path[..|department|] == department
    ensures path[|department|] == '/'
    ensures path[|department| + 1..] == StoredName(key, ext)
  {
    department + "/" + StoredName(key, ext)
  }

  /** Reads a blob-store key back into department, random key and extension:
      the extension follows the last dot, the key runs from the slash before
      it. */
  function SplitPath(path: string): (parts: (string, string, string))
    ensures '/' !in parts.1 && '.' !in parts.2
  {
    var (stem, ext) := Text.SplitLast(path, '.');
    var (department, key) := Text.SplitLast(stem, '/');
    (department, key, ext)
  }

  /** The layout loses nothing: a key without a slash and a dot-free
      extension are read back from the path, and so is the department,
      whatever characters it holds. */
  lemma SplitPathRoundTrip(department: string, key: string, ext: string)
    requires '/' !in key && '.' !in ext
    ensures SplitPath(StoragePath(department, key, ext)) == (department, key, ext)
  {
    var stem := department + ['/'] + key;
    assert StoragePath(department, key, ext) == stem + ['.'] + ext;
    Text.SplitLastInverse(stem, '.', ext);
    Text.SplitLastInverse(department, '/', key);
  }

  /** Two uploads whose random keys differ are stored under different paths. */
  lemma StoragePathInjective(d1: string, k1: string, e1: string, d2: string, k2: string, e2: string)
    requires '/' !in k1 && '.' !in e1 && '/' !in k2 && '.' !in e2
    requires StoragePath(d1, k1, e1) == StoragePath(d2, k2, e2)
    ensures d1 == d2 && k1 == k2 && e1 == e2
  {
    SplitPathRoundTrip(d1, k1, e1);
    SplitPathRoundTrip(d2, k2, e2);
  }
}

=== FILE: domain.dfy ===
/** Entities of the file-storage domain: the two closed enums, the user and
    file records, the opaque metadata value, and the error taxonomy. */
module Domain {

  /** Role of an authenticated user. */
  datatype Role = USER | MANAGER | ADMIN

  /** Access tier of a stored file. */
  datatype Visibility = PRIVATE | DEPARTMENT | PUBLIC

  newtype byte = x: int | 0 <= x < 256

  /** Opaque file contents as held by the blob store. */
  type Bytes = seq<byte>

  /** A user row. The password hash is produced by a hashing library outside the model. */
  datatype User = User(id: nat, username: string, role: Role, department: string, hashedPassword: string)

  /** The JSON values the metadata extractors produce. */
  datatype Json = JStr(str: string) | JInt(num: int)

  /** The metadata column: a JSON object. */
  type Metadata = map<string, Json>

  /** A catalog row describing one stored file. */
  datatype FileRecord = FileRecord(
    id: nat,
    filename: string,          // the stored name "<key>.<ext>"
    originalFilename: string,
    size: nat,
    contentType: string,
    visibility: Visibility,
    s3Path: string,            // the blob-store key "<department>/<key>.<ext>"
    ownerId: nat,
    department: string,
    downloadCount: nat,
    metadata: Option<Metadata>)

  /** The domain exceptions of the file and auth packages, plus the two
      untyped exceptions that escape a service call (a failed blob read
      and a failed enqueue). */
  datatype Error =
    | FileNotFound
    | FileTypeNotAllowed
    | FileSizeExceeded
    | FileAccessDenied
    | FileUploadFailed
    | InvalidCredentials
    | UserNotFound
    | InsufficientPermissions
    | UserAlreadyExists
    | BlobReadFailed
    | EnqueueFailed

  datatype Option<+T> = None | Some(value: T)

  /** Either the value an operation returns or the exception it raises. */
  datatype Result<+T> = Ok(value: T) | Err(error: Error)
}

=== FILE: file_repository.dfy ===
/** The file catalog: the `files` table as a map from id to record, and the
    repository operations on it. Every call is atomic. */
module FileRepository {
  import opened Domain
  import Tables
  import AccessPolicy

  /** The catalog: its rows and the next value of the id sequence. */
  datatype Catalog = Catalog(rows: map<nat, FileRecord>, nextId: nat) {
    /** Ids start at 1, are never reused, and every row carries its own id. */
    predicate Valid() {
      1 <= nextId && forall id :: id in rows ==> 1 <= id < nextId && rows[id].id == id
    }
  }

  /** The arguments of a create. */
  datatype NewFile = NewFile(
    filename: string, originalFilename: string, size: nat, contentType: string,
    visibility: Visibility, s3Path: string, ownerId: nat, department: string)

  /** `f` is a freshly created row holding exactly the fields of `n`. */
  predicate IsFreshRow(f: FileRecord, n: NewFile) {
    && f.filename == n.filename && f.originalFilename == n.originalFilename
    && f.size == n.size && f.contentType == n.contentType && f.visibility == n.visibility
    && f.s3Path == n.s3Path && f.ownerId == n.ownerId && f.department == n.department
    && f.downloadCount == 0 && f.metadata == None
  }

  /** Every row other than `id` is the same in both catalogs. */
  predicate OthersUnchanged(c: Catalog, c': Catalog, id: nat) {
    forall k :: k in c.rows && k != id ==> k in c'.rows && c'.rows[k] == c.rows[k]
  }

  /** Inserts a row under the next id, with a zero download count and no metadata. */
  function Create(c: Catalog, n: NewFile): (res: (FileRecord, Catalog))
    requires c.Valid()
    ensures var (f, c') := res;
      && f.id == c.nextId && f.id !in c.rows
      && IsFreshRow(f, n)
      && c'.rows.Keys == c.rows.Keys + {f.id}
      && c'.rows[f.id] == f
      && OthersUnchanged(c, c', f.id)
      && c'.Valid()
  {
    var f := FileRecord(c.nextId, n.filename, n.originalFilename, n.size, n.contentType,
                        n.visibility, n.s3Path, n.ownerId, n.department, 0, None);
    (f, Catalog(c.rows[c.nextId := f], c.nextId + 1))
  }

  /** The row with that id, if any. */
  function GetById(c: Catalog, id: nat): (r: Option<FileRecord>)
    ensures r.Some? <==> id in c.rows
    ensures r.Some? ==> r.value == c.rows[id]
    ensures c.Valid() && r.Some? ==> r.value.id == id
  {
    Tables.Get(c.rows, id)
  }

  /** The WHERE clause of the listing query, one disjunct list per role. */
  predicate ListingFilter(userId: nat, role: Role, department: string, f: FileRecord) {
    match role
    case ADMIN => true
    case MANAGER =>
      || f.visibility == PUBLIC
      || f.visibility == DEPARTMENT
      || (f.visibility == PRIVATE && f.ownerId == userId)
    case USER =>
      || f.visibility == PUBLIC
      || (f.visibility == DEPARTMENT && f.department == department)
      || (f.visibility == PRIVATE && f.ownerId == userId)
  }

  /** The filter pushed to the database selects exactly the rows the read check admits. */
  lemma ListingFilterIsReadCheck(u: User, f: FileRecord)
    ensures ListingFilter(u.id, u.role, u.department, f) <==> AccessPolicy.CanAccess(f, u)
  {
  }

  /** The files a user may see: every stored row the read check admits, each once. */
  method GetAccessibleFiles(c: Catalog, userId: nat, role: Role, department: string) returns (files: seq<FileRecord>)
    ensures forall f :: f in files ==> f in c.rows.Values
    ensures forall id :: id in c.rows ==>
      (c.rows[id] in files <==> AccessPolicy.CanAccess(c.rows[id], User(userId, "", role, department, "")))
    ensures c.Valid() ==> forall i, j :: 0 <= i < j < |files| ==> files[i].id != files[j].id
  {
    var u := User(userId, "", role, department, "");
    var ids;
    files, ids := Tables.Select(c.rows, f => ListingFilter(userId, role, department, f));
    forall f | f in files ensures AccessPolicy.CanAccess(f, u) {
      var i :| 0 <= i < |files| && files[i] == f;
      ListingFilterIsReadCheck(u, f);
    }
    forall id | id in c.rows && AccessPolicy.CanAccess(c.rows[id], u) ensures c.rows[id] in files {
      ListingFilterIsReadCheck(u, c.rows[id]);
      var i :| 0 <= i < |ids| && ids[i] == id;
    }
  }

  /** Overwrites (does not merge) the metadata of a row; no-op for an absent id. */
  function UpdateMetadata(c: Catalog, id: nat, md: Metadata): (c': Catalog)
    ensures c'.rows.Keys == c.rows.Keys && c'.nextId == c.nextId
    ensures OthersUnchanged(c, c', id)
    ensures id in c.rows ==> c'.rows[id] == c.rows[id].(metadata := Some(md))
    ensures c.Valid() ==> c'.Valid()
  {
    if id in c.rows then c.(rows := c.rows[id := c.rows[id].(metadata := Some(md))]) else c
  }

  /** Writing the same metadata twice is writing it once. */
  lemma UpdateMetadataIdempotent(c: Catalog, id: nat, md: Metadata)
    ensures UpdateMetadata(UpdateMetadata(c, id, md), id, md) == UpdateMetadata(c, id, md)
  {
  }

  /** The last write wins: an earlier metadata value leaves no trace. */
  lemma UpdateMetadataLastWriteWins(c: Catalog, id: nat, first: Metadata, second: Metadata)
    ensures UpdateMetadata(UpdateMetadata(c, id, first), id, second) == UpdateMetadata(c, id, second)
  {
  }

  /** Adds one to a row's download count and changes nothing else; no-op for an absent id. */
  function IncrementDownloadCount(c: Catalog, id: nat): (c': Catalog)
    ensures c'.rows.Keys == c.rows.Keys && c'.nextId == c.nextId
    ensures OthersUnchanged(c, c', id)
    ensures id in c.rows ==> c'.rows[id].downloadCount == c.rows[id].downloadCount + 1
    ensures id in c.rows ==> c'.rows[id] == c.rows[id].(downloadCount := c'.rows[id].downloadCount)
    ensures forall k :: k in c.rows ==> c'.rows[k].downloadCount >= c.rows[k].downloadCount
    ensures c.Valid() ==> c'.Valid()
  {
    if id in c.rows
    then c.(rows := c.rows[id := c.rows[id].(downloadCount := c.rows[id].downloadCount + 1)])
    else c
  }

  /** Removes exactly that row; no-op for an absent id. The id sequence is not rewound. */
  function Delete(c: Catalog, id: nat): (c': Catalog)
    ensures c'.rows.Keys == c.rows.Keys - {id} && c'.nextId == c.nextId
    ensures OthersUnchanged(c, c', id)
    ensures GetById(c', id) == None
    ensures id !in c.rows ==> c' == c
    ensures c.Valid() ==> c'.Valid()
  {
    c.(rows := c.rows - {id})
  }
}

=== FILE: file_service.dfy ===
/** The file lifecycle service: upload, read, download, delete and listing,
    composed from the access policy, the catalog, the blob store and the
    metadata-extraction queue. Each operation returns its result together
    with the new state of the stores. */
module FileService {
  import opened Domain
  import AccessPolicy
  import FileRepository

  /** The stores the service works on: the catalog, the blob store (key to
      bytes), the extraction job queue, and the blob keys generated so far. */
  datatype Storage = Storage(
    catalog: FileRepository.Catalog,
    blobs: map<string, Bytes>,
    queue: seq<nat>,
    usedKeys: set<string>)

  /** An uploaded file as the transport layer hands it over. */
  datatype Upload = Upload(filename: string, size: nat, contentType: string, data: Bytes)

  /** The catalog arguments an accepted upload produces. */
  function UploadRow(up: Upload, visibility: Visibility, user: User, key: string, ext: string): FileRepository.NewFile {
    FileRepository.NewFile(
      AccessPolicy.StoredName(key, ext), up.filename, up.size, up.contentType, visibility,
      AccessPolicy.StoragePath(user.department, key, ext), user.id, user.department)
  }

  /** `f` is the catalog row an accepted upload of `up` by `user` under `key` describes. */
  predicate DescribesUpload(f: FileRecord, up: Upload, visibility: Visibility, user: User, key: string, ext: string) {
    && f.ownerId == user.id
    && f.department == user.department
    && f.visibility == visibility
    && f.originalFilename == up.filename
    && f.size == up.size
    && f.contentType == up.contentType
    && f.filename == AccessPolicy.StoredName(key, ext)
    && f.s3Path == AccessPolicy.StoragePath(user.department, key, ext)
    && f.downloadCount == 0
    && f.metadata == None
  }

  /** The catalog of `st'` is that of `st` plus one row under the fresh id `id`. */
  predicate NewRowOnly(st: Storage, st': Storage, id: nat) {
    && id !in st.catalog.rows
    && st'.catalog.rows.Keys == st.catalog.rows.Keys + {id}
    && FileRepository.OthersUnchanged(st.catalog, st'.catalog, id)
  }

  /** `key` can serve as the random identifier of the next upload: it was
      never generated before, and like the text of a uuid4 (hex digits and
      dashes) it holds no slash. */
  predicate FreshKey(st: Storage, key: string) {
    key !in st.usedKeys && '/' !in key
  }

  /** Every stored row's blob path and every blob in the store splits back
      into a key generated by an earlier upload. */
  predicate KeysRecorded(st: Storage) {
    && (forall id :: id in st.catalog.rows ==> AccessPolicy.SplitPath(st.catalog.rows[id].s3Path).1 in st.usedKeys)
    && (forall p :: p in st.blobs ==> AccessPolicy.SplitPath(p).1 in st.usedKeys)
  }

  /** Uploads a file. `key` is the random identifier the upload generates,
      `putOk` whether the blob store accepts the
      write, `enqueueOk` whether the extraction job can be enqueued. The
      new row takes the next value of the catalog's id sequence. */
  function UploadFile(st: Storage, up: Upload, visibility: Visibility, user: User,
                      key: string, putOk: bool, enqueueOk: bool): (res: (Result<FileRecord>, Storage))
    requires st.catalog.Valid()
    requires FreshKey(st, key)
    ensures res.1.catalog.Valid()
    ensures res.0.Ok? <==>
              AccessPolicy.UploadPermitted(AccessPolicy.Extension(up.filename), up.size, visibility, user.role)
              && putOk && enqueueOk
    // a rejected upload touches nothing and reports the validation error
    ensures AccessPolicy.ValidateUpload(up.filename, up.size, visibility, user.role).Err? ==>
              res == (Err(AccessPolicy.ValidateUpload(up.filename, up.size, visibility, user.role).error), st)
    // a failed blob write leaves the catalog, the blobs and the queue as they were
    ensures AccessPolicy.ValidateUpload(up.filename, up.size, visibility, user.role).Ok? && !putOk ==>
              && res.0 == Err(FileUploadFailed)
              && res.1.catalog == st.catalog && res.1.blobs == st.blobs && res.1.queue == st.queue
    // a stored blob is followed by exactly one new catalog row describing it
    ensures AccessPolicy.ValidateUpload(up.filename, up.size, visibility, user.role).Ok? && putOk ==>
              var ext := AccessPolicy.Extension(up.filename);
              var id := st.catalog.nextId;
              && NewRowOnly(st, res.1, id)
              && DescribesUpload(res.1.catalog.rows[id], up, visibility, user, key, ext)
              && res.1.blobs == st.blobs[AccessPolicy.StoragePath(user.department, key, ext) := up.data]
              && res.1.queue == (if enqueueOk then st.queue + [id] else st.queue)
              && res.0 == (if enqueueOk then Ok(res.1.catalog.rows[id]) else Err(EnqueueFailed))
    ensures AccessPolicy.ValidateUpload(up.filename, up.size, visibility, user.role).Ok? ==>
              res.1.usedKeys == st.usedKeys + {key}
  {
    match AccessPolicy.ValidateUpload(up.filename, up.size, visibility, user.role)
    case Err(e) => (Err(e), st)
    case Ok(ext) =>
      var st1 := st.(usedKeys := st.usedKeys + {key});
      if !putOk then (Err(FileUploadFailed), st1)
      else
        var (f, catalog') := FileRepository.Create(st.catalog, UploadRow(up, visibility, user, key, ext));
        var st2 := st1.(blobs := st.blobs[AccessPolicy.StoragePath(user.department, key, ext) := up.data],
                        catalog := catalog');
        if !enqueueOk then (Err(EnqueueFailed), st2)
        else (Ok(f), st2.(queue := st.queue + [f.id]))
  }

  /** Fetches a file the user may read. */
  function GetFileById(c: FileRepository.Catalog, id: nat, user: User): (r: Result<FileRecord>)
    ensures id !in c.rows ==> r == Err(FileNotFound)
    ensures id in c.rows && !AccessPolicy.CanAccess(c.rows[id], user) ==> r == Err(FileAccessDenied)
    ensures r.Ok? <==> id in c.rows && AccessPolicy.CanAccess(c.rows[id], user)
    ensures r.Ok? ==> r.value == c.rows[id]
  {
    match FileRepository.GetById(c, id)
    case None => Err(FileNotFound)
    case Some(f) => if AccessPolicy.CanAccess(f, user) then Ok(f) else Err(FileAccessDenied)
  }

  /** Downloads a file: read check, then the counter is committed, then the
      blob is read. The record returned is the one read before the increment. */
  function DownloadFile(st: Storage, id: nat, user: User): (res: (Result<(Bytes, FileRecord)>, Storage))
    ensures var (r, st') := res;
      && (GetFileById(st.catalog, id, user).Err? ==>
            st' == st && r == Err(GetFileById(st.catalog, id, user).error))
      && (GetFileById(st.catalog, id, user).Ok? ==>
            && st'.catalog.rows.Keys == st.catalog.rows.Keys
            && st'.catalog.rows[id] == st.catalog.rows[id].(downloadCount := st.catalog.rows[id].downloadCount + 1)
            && st'.catalog.nextId == st.catalog.nextId
            && FileRepository.OthersUnchanged(st.catalog, st'.catalog, id)
            && st'.blobs == st.blobs && st'.queue == st.queue && st'.usedKeys == st.usedKeys
            && (r.Ok? <==> st.catalog.rows[id].s3Path in st.blobs)
            && (r.Ok? ==> r.value == (st.blobs[st.catalog.rows[id].s3Path], st.catalog.rows[id]))
            && (r.Err? ==> r.error == BlobReadFailed))
  {
    match GetFileById(st.catalog, id, user)
    case Err(e) => (Err(e), st)
    case Ok(f) =>
      var st' := st.(catalog := FileRepository.IncrementDownloadCount(st.catalog, id));
      if f.s3Path in st.blobs then (Ok((st.blobs[f.s3Path], f)), st')
      else (Err(BlobReadFailed), st')
  }

  /** Deletes a file: the read check, then the delete rule, then the catalog
      row, then the blob. `blobRemoved` is whether the blob store actually
      removed the object; a refusal by the store is swallowed, so the delete
      succeeds either way. */
  function DeleteFile(st: Storage, id: nat, user: User, blobRemoved: bool): (res: (Result<()>, Storage))
    ensures var (r, st') := res;
      && (r.Ok? <==> id in st.catalog.rows
                     && AccessPolicy.CanAccess(st.catalog.rows[id], user)
                     && AccessPolicy.DeleteRule(st.catalog.rows[id], user))
      && (r.Err? ==> st' == st)
      && (id !in st.catalog.rows ==> r == Err(FileNotFound))
      && ((id in st.catalog.rows && !(AccessPolicy.CanAccess(st.catalog.rows[id], user)
                                      && AccessPolicy.DeleteRule(st.catalog.rows[id], user))) ==> r == Err(FileAccessDenied))
      && (r.Ok? ==>
            && st'.catalog.rows.Keys == st.catalog.rows.Keys - {id}
            && FileRepository.OthersUnchanged(st.catalog, st'.catalog, id)
            && st'.catalog.nextId == st.catalog.nextId
            && st'.queue == st.queue && st'.usedKeys == st.usedKeys
            && st'.blobs.Keys <= st.blobs.Keys
            && (forall p :: p in st'.blobs ==> st'.blobs[p] == st.blobs[p])
            && (forall p :: p in st.blobs && p != st.catalog.rows[id].s3Path ==> p in st'.blobs)
            && (blobRemoved ==> st.catalog.rows[id].s3Path !in st'.blobs)
            && (!blobRemoved ==> st'.blobs == st.blobs))
  {
    match GetFileById(st.catalog, id, user)
    case Err(e) => (Err(e), st)
    case Ok(f) =>
      if !AccessPolicy.DeleteRule(f, user) then (Err(FileAccessDenied), st)
      else
        var catalog' := FileRepository.Delete(st.catalog, id);
        var blobs' := if blobRemoved then st.blobs - {f.s3Path} else st.blobs;
        (Ok(()), st.(catalog := catalog', blobs := blobs'))
  }

  /** The files the user may see. */
  method ListAccessibleFiles(st: Storage, user: User) returns (files: seq<FileRecord>)
    ensures forall f :: f in files ==> f in st.catalog.rows.Values && AccessPolicy.CanAccess(f, user)
    ensures forall id :: id in st.catalog.rows && AccessPolicy.CanAccess(st.catalog.rows[id], user)
              ==> st.catalog.rows[id] in files
  {
    files := FileRepository.GetAccessibleFiles(st.catalog, user.id, user.role, user.department);
    forall f | f in files ensures AccessPolicy.CanAccess(f, user) {
      var id :| id in st.catalog.rows && st.catalog.rows[id] == f;
    }
  }
}

=== FILE: http_mapping.dfy ===
/** The two pure fragments of the HTTP layer: the download filename
    sanitiser and the table from domain errors to status codes, with lemmas
    tying each service operation's errors to the status its endpoint sends. */
module HttpMapping {
  import opened Domain
  import Text
  import AccessPolicy
  import UserRepository
  import FileService
  import UserService

  /** The filename put in the Content-Disposition header of a download: the
      ASCII characters of the original name, or `file_<id>` when none are left. */
  function SafeFilename(original: string, id: nat): (name: string)
    ensures |name| > 0 && Text.AllAscii(name)
    ensures Text.DropNonAscii(original) != "" ==> name == Text.DropNonAscii(original)
    ensures Text.DropNonAscii(original) == "" ==> name == "file_" + Text.Decimal(id)
    ensures Text.AllAscii(original) && original != "" ==> name == original
    ensures forall c :: c in original && Text.IsAscii(c) ==> c in name
  {
    var projected := Text.DropNonAscii(original);
    if projected != "" then projected
    else
      var fallback := "file_" + Text.Decimal(id);
      assert forall i :: 5 <= i < |fallback| ==> fallback[i] == Text.Decimal(id)[i - 5];
      fallback
  }

  /** The routes whose handlers translate exceptions. */
  datatype Endpoint =
    | LoginRoute | CreateUserRoute | ListUsersRoute | GetUserRoute | UpdateRoleRoute
    | UploadRoute | GetFileRoute | DownloadRoute | DeleteRoute

  /** The status a route answers with when the service raises `e`. An
      exception the handler does not catch becomes 500. */
  function StatusFor(route: Endpoint, e: Error): (code: nat)
    ensures code in {400, 401, 403, 404, 500}
    ensures route == UploadRoute ==>
              (code == 400 <==> e in {FileTypeNotAllowed, FileSizeExceeded, FileAccessDenied, FileUploadFailed})
    ensures route in {GetFileRoute, DownloadRoute, DeleteRoute} ==>
              && (e == FileNotFound <==> code == 404)
              && (e == FileAccessDenied <==> code == 403)
    ensures route in {CreateUserRoute, ListUsersRoute, GetUserRoute, UpdateRoleRoute} && e == InsufficientPermissions ==> code == 403
    ensures route in {GetUserRoute, UpdateRoleRoute} && e == UserNotFound ==> code == 404
    ensures route == CreateUserRoute && e == UserAlreadyExists ==> code == 400
  {
    match route
    case LoginRoute => if e == InvalidCredentials then 401 else 500
    case CreateUserRoute =>
      if e == InsufficientPermissions then 403 else if e == UserAlreadyExists then 400 else 500
    case ListUsersRoute => if e == InsufficientPermissions then 403 else 500
    case GetUserRoute | UpdateRoleRoute =>
      if e == UserNotFound then 404 else if e == InsufficientPermissions then 403 else 500
    case UploadRoute =>
      if e in {FileTypeNotAllowed, FileSizeExceeded, FileAccessDenied, FileUploadFailed} then 400 else 500
    case GetFileRoute | DownloadRoute | DeleteRoute =>
      if e == FileNotFound then 404 else if e == FileAccessDenied then 403 else 500
  }

  /** Every upload rejection is a 400, the visibility refusal included; only
      the uncaught enqueue failure escapes as a 500. */
  lemma UploadErrorStatus(st: FileService.Storage, up: FileService.Upload, visibility: Visibility, user: User,
                          key: string, putOk: bool, enqueueOk: bool)
    requires st.catalog.Valid() && FileService.FreshKey(st, key)
    ensures var r := FileService.UploadFile(st, up, visibility, user, key, putOk, enqueueOk).0;
      r.Err? ==> (StatusFor(UploadRoute, r.error) == 400 <==> r.error != EnqueueFailed)
  {
    var r := FileService.UploadFile(st, up, visibility, user, key, putOk, enqueueOk).0;
    var v := AccessPolicy.ValidateUpload(up.filename, up.size, visibility, user.role);
    if v.Err? {
      assert r.error in {FileTypeNotAllowed, FileSizeExceeded, FileAccessDenied};
    } else if !putOk {
      assert r.error == FileUploadFailed;
    } else {
      assert r.Err? ==> r.error == EnqueueFailed;
    }
  }

  /** Get and delete only ever answer 404 or 403 on failure; download also
      answers 500 when the blob cannot be read. */
  lemma FileErrorStatus(st: FileService.Storage, id: nat, user: User, blobRemoved: bool)
    ensures var r := FileService.GetFileById(st.catalog, id, user);
      r.Err? ==> StatusFor(GetFileRoute, r.error) in {403, 404}
    ensures var r := FileService.DeleteFile(st, id, user, blobRemoved).0;
      r.Err? ==> StatusFor(DeleteRoute, r.error) in {403, 404}
    ensures var r := FileService.DownloadFile(st, id, user).0;
      r.Err? ==> (StatusFor(DownloadRoute, r.error) in {403, 404} <==> r.error != BlobReadFailed)
  {
  }

  /** The user routes translate every error their service raises into 400, 403 or 404. */
  lemma UserErrorStatus(s: UserRepository.UserStore, id: nat, username: string, hashedPassword: string,
                        role: Role, department: string, current: User)
    requires s.Valid()
    ensures var r := UserService.CreateUser(s, username, hashedPassword, role, department, current).0;
      r.Err? ==> StatusFor(CreateUserRoute, r.error) in {400, 403}
    ensures var r := UserService.GetUserById(s, id, current);
      r.Err? ==> StatusFor(GetUserRoute, r.error) in {403, 404}
    ensures var r := UserService.UpdateUserRole(s, id, role, current).0;
      r.Err? ==> StatusFor(UpdateRoleRoute, r.error) in {403, 404}
  {
  }
}

=== FILE: metadata_worker.dfy ===
/** The metadata-extraction job run by the background worker: fetch the
    blob, dispatch on content type, and overwrite the record's metadata with
    the extracted fields or an error marker. The blob fetch and the PDF and
    word-processing parsers are supplied by the environment. */
module MetadataWorker {
  import opened Domain
  import FileRepository

  const PdfType: string := "application/pdf"
  const MsWordType: string := "application/msword"
  const DocxType: string := "application/vnd.openxmlformats-officedocument.wordprocessingml.document"

  /** Outcome of reading a blob from the store. */
  datatype Fetch = Fetched(data: Bytes) | FetchFailed(reason: string)

  /** What a PDF parser exposes: its page count and its document-information
      dictionary, which a document may lack. */
  datatype PdfDocument = PdfDocument(pageCount: nat, info: Option<map<string, string>>)
  datatype PdfParse = PdfParsed(pdf: PdfDocument) | PdfUnreadable(pdfReason: string)

  /** What a word-processing parser exposes: counts and core properties. */
  datatype DocxDocument = DocxDocument(
    paragraphs: nat, tables: nat, title: Option<string>, author: Option<string>, created: Option<string>)
  datatype DocxParse = DocxParsed(docx: DocxDocument) | DocxUnreadable(docxReason: string)

  /** The environment's blob fetch and document parsers. Being functions,
      they give the same answer for the same input. */
  datatype Extractors = Extractors(fetch: string -> Fetch, parsePdf: Bytes -> PdfParse, parseDocx: Bytes -> DocxParse)

  const Unknown: Json := JStr("Unknown")

  /** The metadata written in place of extracted fields when something failed. */
  function ErrorMarker(message: string): (m: Metadata)
    ensures m.Keys == {"error"} && m["error"] == JStr(message)
  {
    map["error" := JStr(message)]
  }

  /** An entry of the PDF information dictionary, or "Unknown" when the
      dictionary or the entry is missing. */
  function InfoEntry(info: Option<map<string, string>>, key: string): (v: Json)
    ensures info.Some? && key in info.value ==> v == JStr(info.value[key])
    ensures info.None? || key !in info.value ==> v == Unknown
  {
    match info
    case None => Unknown
    case Some(d) => if key in d then JStr(d[key]) else Unknown
  }

  /** The fields extracted from a PDF, or an error marker when it cannot be parsed. */
  function PdfMetadata(p: PdfParse): (m: Metadata)
    ensures p.PdfUnreadable? ==> m == ErrorMarker("Could not extract PDF metadata: " + p.pdfReason)
    ensures p.PdfParsed? ==>
              && m.Keys == {"pages", "author", "title", "creation_date", "creator"}
              && m["pages"] == JInt(p.pdf.pageCount)
    ensures p.PdfParsed? && p.pdf.info.None? ==>
              m["author"] == Unknown && m["title"] == Unknown && m["creation_date"] == Unknown && m["creator"] == Unknown
    ensures p.PdfParsed? ==>
              && m["author"] == InfoEntry(p.pdf.info, "/Author")
              && m["title"] == InfoEntry(p.pdf.info, "/Title")
              && m["creation_date"] == InfoEntry(p.pdf.info, "/CreationDate")
              && m["creator"] == InfoEntry(p.pdf.info, "/Creator")
  {
    match p
    case PdfUnreadable(reason) => ErrorMarker("Could not extract PDF metadata: " + reason)
    case PdfParsed(doc) =>
      map[
        "pages" := JInt(doc.pageCount),
        "author" := InfoEntry(doc.info, "/Author"),
        "title" := InfoEntry(doc.info, "/Title"),
        "creation_date" := InfoEntry(doc.info, "/CreationDate"),
        "creator" := InfoEntry(doc.info, "/Creator")]
  }

  /** Python's `value or "Unknown"` for an optional string: both a missing
      and an empty value fall back to "Unknown". */
  function OrUnknown(value: Option<string>): (v: Json)
    ensures value.Some? && value.value != "" ==> v == JStr(value.value)
    ensures value.None? || value.value == "" ==> v == Unknown
  {
    if value.Some? && value.value != "" then JStr(value.value) else Unknown
  }

  /** The fields extracted from a word-processing document, or an error
      marker when it cannot be parsed. */
  function DocxMetadata(p: DocxParse): (m: Metadata)
    ensures p.DocxUnreadable? ==> m == ErrorMarker("Could not extract DOCX metadata: " + p.docxReason)
    ensures p.DocxParsed? ==>
              && m.Keys == {"paragraphs", "tables", "title", "author", "creation_date"}
              && m["paragraphs"] == JInt(p.docx.paragraphs)
              && m["tables"] == JInt(p.docx.tables)
    ensures p.DocxParsed? ==>
              && m["title"] == OrUnknown(p.docx.title)
              && m["author"] == OrUnknown(p.docx.author)
              && m["creation_date"] == (if p.docx.created.Some? then JStr(p.docx.created.value) else Unknown)
  {
    match p
    case DocxUnreadable(reason) => ErrorMarker("Could not extract DOCX metadata: " + reason)
    case DocxParsed(doc) =>
      map[
        "paragraphs" := JInt(doc.paragraphs),
        "tables" := JInt(doc.tables),
        "title" := OrUnknown(doc.title),
        "author" := OrUnknown(doc.author),
        "creation_date" := if doc.created.Some? then JStr(doc.created.value) else Unknown]
  }

  /** The field of the PDF metadata each information-dictionary entry is copied to. */
  function PdfField(entry: string): string {
    if entry == "/Author" then "author"
    else if entry == "/Title" then "title"
    else if entry == "/CreationDate" then "creation_date"
    else "creator"
  }

  const PdfEntries: set<string> := {"/Author", "/Title", "/CreationDate", "/Creator"}

  /** Reads the information-dictionary entries back out of PDF metadata:
      every one of the four copied fields that is not "Unknown". */
  function RecoveredInfo(m: Metadata): map<string, string> {
    map e | e in PdfEntries && PdfField(e) in m && m[PdfField(e)].JStr? && m[PdfField(e)] != Unknown
          :: m[PdfField(e)].str
  }

  /** Nothing of the four entries is lost: unless an entry literally reads
      "Unknown", the metadata gives back exactly the entries the document
      carries, and none at all for a document without a dictionary. */
  lemma PdfMetadataRoundTrip(doc: PdfDocument)
    requires doc.info.Some? ==> forall e :: e in doc.info.value ==> doc.info.value[e] != "Unknown"
    ensures var m := PdfMetadata(PdfParsed(doc));
      && "error" !in m
      && RecoveredInfo(m) == (if doc.info.None? then map[]
                              else map e | e in doc.info.value && e in PdfEntries :: doc.info.value[e])
  {
    var m := PdfMetadata(PdfParsed(doc));
    var expected := if doc.info.None? then map[]
                    else map e | e in doc.info.value && e in PdfEntries :: doc.info.value[e];
    forall e | e in PdfEntries
      ensures e in RecoveredInfo(m) <==> e in expected
      ensures e in expected ==> RecoveredInfo(m)[e] == expected[e]
    {
      assert m[PdfField(e)] == InfoEntry(doc.info, e);
    }
    assert RecoveredInfo(m).Keys == expected.Keys;
  }

  /** Reads the core properties back out of word-processing metadata: a
      field that is not "Unknown" is the property's value. */
  function RecoveredProperties(m: Metadata): (Option<string>, Option<string>, Option<string>) {
    (Recovered(m, "title"), Recovered(m, "author"), Recovered(m, "creation_date"))
  }

  function Recovered(m: Metadata, field: string): Option<string> {
    if field in m && m[field].JStr? && m[field] != Unknown then Some(m[field].str) else None
  }

  /** Nothing of the three properties is lost, unless a title or author is
      empty or a property literally reads "Unknown". */
  lemma DocxMetadataRoundTrip(doc: DocxDocument)
    requires doc.title.Some? ==> doc.title.value !in {"", "Unknown"}
    requires doc.author.Some? ==> doc.author.value !in {"", "Unknown"}
    requires doc.created.Some? ==> doc.created.value != "Unknown"
    ensures var m := DocxMetadata(DocxParsed(doc));
      "error" !in m && RecoveredProperties(m) == (doc.title, doc.author, doc.created)
  {
  }

  /** The metadata a job computes for a record: an error marker when the blob
      cannot be fetched, otherwise the extractor chosen by content type, or
      an empty object for any other content type. */
  function JobMetadata(f: FileRecord, x: Extractors): (m: Metadata)
    ensures x.fetch(f.s3Path).FetchFailed? ==>
              m == ErrorMarker("Failed to extract metadata: " + x.fetch(f.s3Path).reason)
    ensures x.fetch(f.s3Path).Fetched? && f.contentType == PdfType ==>
              m == PdfMetadata(x.parsePdf(x.fetch(f.s3Path).data))
    ensures x.fetch(f.s3Path).Fetched? && (f.contentType == MsWordType || f.contentType == DocxType) ==>
              m == DocxMetadata(x.parseDocx(x.fetch(f.s3Path).data))
    ensures x.fetch(f.s3Path).Fetched? && f.contentType !in {PdfType, MsWordType, DocxType} ==> m == map[]
  {
    match x.fetch(f.s3Path)
    case FetchFailed(reason) => ErrorMarker("Failed to extract metadata: " + reason)
    case Fetched(data) =>
      if f.contentType == PdfType then PdfMetadata(x.parsePdf(data))
      else if f.contentType == MsWordType || f.contentType == DocxType then DocxMetadata(x.parseDocx(data))
      else map[]
  }

  /** The extraction job for one file id: a no-op when the row is gone,
      otherwise an overwrite of that row's metadata and nothing else. */
  function ExtractMetadata(c: FileRepository.Catalog, id: nat, x: Extractors): (c': FileRepository.Catalog)
    ensures id !in c.rows ==> c' == c
    ensures c'.rows.Keys == c.rows.Keys && c'.nextId == c.nextId
    ensures FileRepository.OthersUnchanged(c, c', id)
    ensures id in c.rows ==> c'.rows[id] == c.rows[id].(metadata := Some(JobMetadata(c.rows[id], x)))
    ensures c.Valid() ==> c'.Valid()
  {
    match FileRepository.GetById(c, id)
    case None => c
    case Some(f) => FileRepository.UpdateMetadata(c, id, JobMetadata(f, x))
  }

  /** A job never fails outward: when the row exists, it always ends with metadata present. */
  lemma ExtractionAlwaysRecords(c: FileRepository.Catalog, id: nat, x: Extractors)
    requires id in c.rows
    ensures ExtractMetadata(c, id, x).rows[id].metadata.Some?
    ensures x.fetch(c.rows[id].s3Path).FetchFailed? ==> "error" in ExtractMetadata(c, id, x).rows[id].metadata.value
  {
  }

  /** Running the job twice on the same bytes with the same parsers leaves
      the catalog as one run does: the second run reads the same path and
      content type and overwrites with the same value. */
  lemma ExtractMetadataIdempotent(c: FileRepository.Catalog, id: nat, x: Extractors)
    ensures ExtractMetadata(ExtractMetadata(c, id, x), id, x) == ExtractMetadata(c, id, x)
  {
    if id in c.rows {
      var c1 := ExtractMetadata(c, id, x);
      assert c1.rows[id].s3Path == c.rows[id].s3Path && c1.rows[id].contentType == c.rows[id].contentType;
      assert JobMetadata(c1.rows[id], x) == JobMetadata(c.rows[id], x);
      FileRepository.UpdateMetadataIdempotent(c, id, JobMetadata(c.rows[id], x));
    }
  }
}

=== FILE: scenarios.dfy ===
/** Concrete end-to-end runs of the lifecycle operations on an arbitrary
    starting state. */
module Scenarios {
  import opened Domain
  import Text
  import AccessPolicy
  import FileService
  import MetadataWorker

  /** The extension derived from "<stem>.<ext>" for a lower-case `ext`. */
  lemma KnownExtension(stem: string, ext: string)
    requires ext in {"pdf", "docx"}
    ensures AccessPolicy.Extension(stem + "." + ext) == ext
  {
    AccessPolicy.ExtensionAfterLastDot(stem, ext);
    Text.LowerOfLower(ext);
  }

  /** A department manager's 2 MiB word document shared with the department
      is accepted; a user of another department is refused it, a user of the
      same department gets it. */
  lemma DepartmentShareScenario(st: FileService.Storage, data: Bytes, key: string)
    requires st.catalog.Valid() && FileService.FreshKey(st, key)
    ensures
      var manager := User(1, "mia", MANAGER, "eng", "h1");
      var up := FileService.Upload("spec.docx", 2 * AccessPolicy.MiB, MetadataWorker.DocxType, data);
      var (r, st') := FileService.UploadFile(st, up, DEPARTMENT, manager, key, true, true);
      var id := st.catalog.nextId;
      && r.Ok? && r.value.id == id
      && FileService.GetFileById(st'.catalog, id, User(2, "sam", USER, "sales", "h2")) == Err(FileAccessDenied)
      && FileService.GetFileById(st'.catalog, id, User(3, "eve", USER, "eng", "h3")) == Ok(r.value)
  {
    KnownExtension("spec", "docx");
    assert "spec.docx" == "spec" + "." + "docx";
  }

  /** A plain user may upload only PDFs. */
  lemma UserWordUploadScenario(st: FileService.Storage, data: Bytes, key: string)
    requires st.catalog.Valid() && FileService.FreshKey(st, key)
    ensures
      var user := User(4, "una", USER, "ops", "h4");
      var up := FileService.Upload("notes.docx", 1024, MetadataWorker.DocxType, data);
      FileService.UploadFile(st, up, PRIVATE, user, key, true, true) == (Err(FileTypeNotAllowed), st)
  {
    KnownExtension("notes", "docx");
    assert "notes.docx" == "notes" + "." + "docx";
  }

  /** Another admin downloads an admin's private PDF; the count becomes 1. */
  lemma AdminDownloadScenario(st: FileService.Storage, data: Bytes, key: string)
    requires st.catalog.Valid() && FileService.FreshKey(st, key)
    ensures
      var owner := User(5, "ada", ADMIN, "it", "h5");
      var other := User(6, "bob", ADMIN, "hr", "h6");
      var up := FileService.Upload("plan.pdf", 4096, "application/pdf", data);
      var (_, st1) := FileService.UploadFile(st, up, PRIVATE, owner, key, true, true);
      var id := st.catalog.nextId;
      var (r, st2) := FileService.DownloadFile(st1, id, other);
      && r.Ok? && r.value.0 == data
      && st2.catalog.rows[id].downloadCount == 1
  {
    KnownExtension("plan", "pdf");
    assert "plan.pdf" == "plan" + "." + "pdf";
  }
}

=== FILE: system_invariants.dfy ===
/** Properties that span several operations: the uploader keeps access to
    their files, deletion is terminal, download counts never decrease, the
    extraction job never changes who can see a file, and the delete right
    that results from the read check and the delete rule together. */
module SystemInvariants {
  import opened Domain
  import AccessPolicy
  import FileRepository
  import UserRepository
  import FileService
  import UserService
  import MetadataWorker

  /** The caller is the stored user row (authentication reads it by username). */
  predicate Authenticated(users: UserRepository.UserStore, u: User) {
    u.id in users.rows && users.rows[u.id] == u
  }

  /** Every file's owner is a stored user who still belongs to the
      department the file was filed under. */
  predicate OwnersConsistent(users: UserRepository.UserStore, c: FileRepository.Catalog) {
    forall id :: id in c.rows ==>
      c.rows[id].ownerId in users.rows && users.rows[c.rows[id].ownerId].department == c.rows[id].department
  }

  /** No row's download count went down from `c` to `c'`. */
  predicate CountsNotDecreased(c: FileRepository.Catalog, c': FileRepository.Catalog) {
    forall id :: id in c.rows && id in c'.rows ==> c'.rows[id].downloadCount >= c.rows[id].downloadCount
  }

  /** The owner of a stored file can always read it and delete it. */
  lemma OwnerCanReadAndDelete(users: UserRepository.UserStore, st: FileService.Storage, id: nat, blobRemoved: bool)
    requires users.Valid() && OwnersConsistent(users, st.catalog) && id in st.catalog.rows
    ensures var owner := users.rows[st.catalog.rows[id].ownerId];
      && FileService.GetFileById(st.catalog, id, owner) == Ok(st.catalog.rows[id])
      && FileService.DeleteFile(st, id, owner, blobRemoved).0 == Ok(())
  {
    var f := st.catalog.rows[id];
    var owner := users.rows[f.ownerId];
    assert owner.id == f.ownerId;
    assert AccessPolicy.CanAccess(f, owner);
  }

  /** An upload by an authenticated user files the record under that user's
      current department, so ownership stays consistent. */
  lemma UploadKeepsOwnersConsistent(users: UserRepository.UserStore, st: FileService.Storage, up: FileService.Upload,
                                    visibility: Visibility, user: User, key: string, putOk: bool, enqueueOk: bool)
    requires st.catalog.Valid() && FileService.FreshKey(st, key)
    requires OwnersConsistent(users, st.catalog) && Authenticated(users, user)
    ensures OwnersConsistent(users, FileService.UploadFile(st, up, visibility, user, key, putOk, enqueueOk).1.catalog)
  {
    var st' := FileService.UploadFile(st, up, visibility, user, key, putOk, enqueueOk).1;
    forall id | id in st'.catalog.rows
      ensures st'.catalog.rows[id].ownerId in users.rows
      ensures users.rows[st'.catalog.rows[id].ownerId].department == st'.catalog.rows[id].department
    {
      if id !in st.catalog.rows {
        assert id == st.catalog.nextId;
      }
    }
  }

  /** Creating a user adds a fresh row and re-roling one keeps its
      department, so neither breaks ownership consistency. */
  lemma UserAdministrationKeepsOwnersConsistent(users: UserRepository.UserStore, c: FileRepository.Catalog,
                                                username: string, hashedPassword: string, role: Role,
                                                department: string, target: nat, current: User)
    requires users.Valid() && OwnersConsistent(users, c)
    ensures OwnersConsistent(UserService.CreateUser(users, username, hashedPassword, role, department, current).1, c)
    ensures OwnersConsistent(UserService.UpdateUserRole(users, target, role, current).1, c)
  {
  }

  /** Download and delete only shrink the catalog or bump a counter, so
      ownership stays consistent. */
  lemma FileOperationsKeepOwnersConsistent(users: UserRepository.UserStore, st: FileService.Storage, id: nat,
                                           user: User, blobRemoved: bool)
    requires OwnersConsistent(users, st.catalog)
    ensures OwnersConsistent(users, FileService.DownloadFile(st, id, user).1.catalog)
    ensures OwnersConsistent(users, FileService.DeleteFile(st, id, user, blobRemoved).1.catalog)
  {
  }

  /** The extraction job rewrites metadata only, so ownership stays consistent. */
  lemma ExtractionKeepsOwnersConsistent(users: UserRepository.UserStore, c: FileRepository.Catalog, id: nat,
                                        x: MetadataWorker.Extractors)
    requires OwnersConsistent(users, c)
    ensures OwnersConsistent(users, MetadataWorker.ExtractMetadata(c, id, x))
  {
  }

  /** The uploader can read back and delete the file they just uploaded. */
  lemma UploaderCanReadAndDeleteUpload(st: FileService.Storage, up: FileService.Upload, visibility: Visibility,
                                       user: User, key: string, enqueueOk: bool, blobRemoved: bool)
    requires st.catalog.Valid() && FileService.FreshKey(st, key)
    requires AccessPolicy.UploadPermitted(AccessPolicy.Extension(up.filename), up.size, visibility, user.role)
    ensures var st' := FileService.UploadFile(st, up, visibility, user, key, true, enqueueOk).1;
      var id := st.catalog.nextId;
      && id in st'.catalog.rows
      && FileService.GetFileById(st'.catalog, id, user) == Ok(st'.catalog.rows[id])
      && FileService.DeleteFile(st', id, user, blobRemoved).0 == Ok(())
  {
  }

  /** After a successful delete the id is gone for everyone, an admin
      included: get, download and delete all answer FileNotFound. */
  lemma DeleteIsTerminal(st: FileService.Storage, id: nat, deleter: User, blobRemoved: bool, anyone: User, again: bool)
    requires FileService.DeleteFile(st, id, deleter, blobRemoved).0.Ok?
    ensures var st' := FileService.DeleteFile(st, id, deleter, blobRemoved).1;
      && FileService.GetFileById(st'.catalog, id, anyone) == Err(FileNotFound)
      && FileService.DownloadFile(st', id, anyone).0 == Err(FileNotFound)
      && FileService.DeleteFile(st', id, anyone, again).0 == Err(FileNotFound)
  {
  }

  /** A deleted id is never handed out again: the next upload takes a new id. */
  lemma DeletedIdNotReused(st: FileService.Storage, id: nat, deleter: User, blobRemoved: bool,
                           up: FileService.Upload, visibility: Visibility, uploader: User,
                           key: string, putOk: bool, enqueueOk: bool)
    requires st.catalog.Valid() && FileService.FreshKey(st, key)
    requires FileService.DeleteFile(st, id, deleter, blobRemoved).0.Ok?
    ensures var st1 := FileService.DeleteFile(st, id, deleter, blobRemoved).1;
      st1.catalog.Valid() && FileService.FreshKey(st1, key)
      && id !in FileService.UploadFile(st1, up, visibility, uploader, key, putOk, enqueueOk).1.catalog.rows
  {
    var st1 := FileService.DeleteFile(st, id, deleter, blobRemoved).1;
    assert id < st1.catalog.nextId;
  }

  /** The delete right that results from the read check followed by the
      delete rule, written per visibility tier. */
  predicate EffectiveDeleteRight(f: FileRecord, u: User) {
    var owner := f.ownerId == u.id;
    var deptManager := u.role == MANAGER && f.department == u.department;
    if u.role == ADMIN then true
    else match f.visibility
      case PRIVATE => owner
      case PUBLIC => owner || deptManager
      case DEPARTMENT => deptManager || (owner && (u.role == MANAGER || f.department == u.department))
  }

  /** Delete succeeds exactly when the file exists and the effective delete right holds. */
  lemma DeleteRightCharacterised(st: FileService.Storage, id: nat, u: User, blobRemoved: bool)
    ensures FileService.DeleteFile(st, id, u, blobRemoved).0.Ok? <==>
              id in st.catalog.rows && EffectiveDeleteRight(st.catalog.rows[id], u)
  {
  }

  /** Because delete first performs the read check, a manager cannot delete
      another user's private file, even one filed in the manager's department. */
  lemma ManagerCannotDeleteOthersPrivateFile(st: FileService.Storage, id: nat, manager: User, blobRemoved: bool)
    requires manager.role == MANAGER && id in st.catalog.rows
    requires st.catalog.rows[id].visibility == PRIVATE && st.catalog.rows[id].ownerId != manager.id
    ensures AccessPolicy.DeleteRule(st.catalog.rows[id], manager) <==> st.catalog.rows[id].department == manager.department
    ensures FileService.DeleteFile(st, id, manager, blobRemoved) == (Err(FileAccessDenied), st)
  {
  }

  /** A refused download changes nothing, and an admitted one adds one to
      that count only, even when the blob read then fails. */
  lemma DownloadCountsMonotone(st: FileService.Storage, id: nat, user: User)
    ensures CountsNotDecreased(st.catalog, FileService.DownloadFile(st, id, user).1.catalog)
    ensures FileService.GetFileById(st.catalog, id, user).Err? ==> FileService.DownloadFile(st, id, user).1 == st
    ensures (FileService.DownloadFile(st, id, user).0.Err?
             && FileService.DownloadFile(st, id, user).0.error == BlobReadFailed) ==>
              FileService.DownloadFile(st, id, user).1.catalog.rows[id].downloadCount
                == st.catalog.rows[id].downloadCount + 1
  {
  }

  /** An upload never lowers any download count. */
  lemma UploadKeepsCounts(st: FileService.Storage, up: FileService.Upload, visibility: Visibility, user: User,
                          key: string, putOk: bool, enqueueOk: bool)
    requires st.catalog.Valid() && FileService.FreshKey(st, key)
    ensures CountsNotDecreased(st.catalog, FileService.UploadFile(st, up, visibility, user, key, putOk, enqueueOk).1.catalog)
  {
    var c' := FileService.UploadFile(st, up, visibility, user, key, putOk, enqueueOk).1.catalog;
    assert FileRepository.OthersUnchanged(st.catalog, c', st.catalog.nextId);
  }

  /** Delete and the extraction job never lower any download count. */
  lemma DeleteAndExtractionKeepCounts(st: FileService.Storage, id: nat, user: User, blobRemoved: bool,
                                      x: MetadataWorker.Extractors)
    ensures CountsNotDecreased(st.catalog, FileService.DeleteFile(st, id, user, blobRemoved).1.catalog)
    ensures CountsNotDecreased(st.catalog, MetadataWorker.ExtractMetadata(st.catalog, id, x))
  {
  }

  /** The extraction job, whatever its outcome, never changes who may read
      any file: a file whose extraction failed is still served. */
  lemma ExtractionKeepsAccess(c: FileRepository.Catalog, jobId: nat, x: MetadataWorker.Extractors, id: nat, u: User)
    ensures var c' := MetadataWorker.ExtractMetadata(c, jobId, x);
      FileService.GetFileById(c', id, u).Ok? <==> FileService.GetFileById(c, id, u).Ok?
  {
  }

  /** An accepted upload writes its blob under a path that no stored row and
      no blob in the store uses, so it never overwrites another file's content. */
  lemma UploadPathFresh(st: FileService.Storage, department: string, key: string, filename: string)
    requires FileService.FreshKey(st, key) && FileService.KeysRecorded(st)
    ensures var path := AccessPolicy.StoragePath(department, key, AccessPolicy.Extension(filename));
      && path !in st.blobs
      && (forall id :: id in st.catalog.rows ==> st.catalog.rows[id].s3Path != path)
  {
    AccessPolicy.SplitPathRoundTrip(department, key, AccessPolicy.Extension(filename));
  }

  /** An upload records the key its blob path splits into. */
  lemma UploadKeepsKeysRecorded(st: FileService.Storage, up: FileService.Upload, visibility: Visibility, user: User,
                                key: string, putOk: bool, enqueueOk: bool)
    requires st.catalog.Valid() && FileService.FreshKey(st, key) && FileService.KeysRecorded(st)
    ensures FileService.KeysRecorded(FileService.UploadFile(st, up, visibility, user, key, putOk, enqueueOk).1)
  {
    var st' := FileService.UploadFile(st, up, visibility, user, key, putOk, enqueueOk).1;
    var ext := AccessPolicy.Extension(up.filename);
    if AccessPolicy.ValidateUpload(up.filename, up.size, visibility, user.role).Ok? && putOk {
      var path := AccessPolicy.StoragePath(user.department, key, ext);
      AccessPolicy.SplitPathRoundTrip(user.department, key, ext);
      assert st'.usedKeys == st.usedKeys + {key};
      forall id | id in st'.catalog.rows
        ensures AccessPolicy.SplitPath(st'.catalog.rows[id].s3Path).1 in st'.usedKeys
      {
        if id == st.catalog.nextId {
          assert st'.catalog.rows[id].s3Path == path;
        }
      }
      forall p | p in st'.blobs
        ensures AccessPolicy.SplitPath(p).1 in st'.usedKeys
      {
      }
    }
  }

  /** Download and delete never move a blob path or forget a key, so every
      path still splits into a generated key. */
  lemma DownloadAndDeleteKeepKeysRecorded(st: FileService.Storage, id: nat, user: User, blobRemoved: bool)
    requires FileService.KeysRecorded(st)
    ensures FileService.KeysRecorded(FileService.DownloadFile(st, id, user).1)
    ensures FileService.KeysRecorded(FileService.DeleteFile(st, id, user, blobRemoved).1)
  {
    var d := FileService.DownloadFile(st, id, user).1;
    forall k | k in d.catalog.rows ensures d.catalog.rows[k].s3Path == st.catalog.rows[k].s3Path {
    }
    var e := FileService.DeleteFile(st, id, user, blobRemoved).1;
    assert e.catalog.rows.Keys <= st.catalog.rows.Keys && e.blobs.Keys <= st.blobs.Keys;
  }

  /** The extraction job rewrites metadata only, so every path still splits
      into a generated key. */
  lemma ExtractionKeepsKeysRecorded(st: FileService.Storage, id: nat, x: MetadataWorker.Extractors)
    requires FileService.KeysRecorded(st)
    ensures FileService.KeysRecorded(st.(catalog := MetadataWorker.ExtractMetadata(st.catalog, id, x)))
  {
    var c' := MetadataWorker.ExtractMetadata(st.catalog, id, x);
    forall k | k in c'.rows ensures c'.rows[k].s3Path == st.catalog.rows[k].s3Path {
    }
  }
}

=== FILE: tables.dfy ===
/** A table of rows keyed by an auto-incremented integer id, and the
    row-selecting scan both repositories run (`SELECT ... WHERE cond`). */
module Tables {
  import opened Domain

  /** The row stored under `id`, if any (`SELECT ... WHERE id = :id`). */
  function Get<T>(m: map<nat, T>, id: nat): (r: Option<T>)
    ensures r.Some? <==> id in m
    ensures r.Some? ==> r.value == m[id]
  {
    if id in m then Some(m[id]) else None
  }

  /** Returns every row of `m` that satisfies `keep`, each once, in some
      order, together with the key of each returned row. */
  method Select<T>(m: map<nat, T>, keep: T -> bool) returns (rows: seq<T>, ids: seq<nat>)
    ensures |ids| == |rows|
    ensures forall i :: 0 <= i < |ids| ==> ids[i] in m && m[ids[i]] == rows[i] && keep(rows[i])
    ensures forall i, j :: 0 <= i < j < |ids| ==> ids[i] != ids[j]
    ensures forall k :: k in m && keep(m[k]) ==> k in ids
  {
    rows, ids := [], [];
    var todo := m.Keys;
    while todo != {}
      invariant todo <= m.Keys
      invariant |ids| == |rows|
      invariant forall i :: 0 <= i < |ids| ==> ids[i] in m && ids[i] !in todo && m[ids[i]] == rows[i] && keep(rows[i])
      invariant forall i, j :: 0 <= i < j < |ids| ==> ids[i] != ids[j]
      invariant forall k :: k in m && k !in todo && keep(m[k]) ==> k in ids
      decreases |todo|
    {
      var k :| k in todo;
      if keep(m[k]) {
        rows, ids := rows + [m[k]], ids + [k];
      }
      todo := todo - {k};
    }
  }
}

=== FILE: text.dfy ===
/** The string operations the core relies on: the last segment of a split,
    ASCII lower-casing, dropping non-ASCII characters, and decimal rendering
    of a number. */
module Text {

  predicate IsAscii(c: char) {
    c as int < 128
  }

  predicate AllAscii(s: string) {
    forall i :: 0 <= i < |s| ==> IsAscii(s[i])
  }

  /** Python's `s.split(sep)[-1]`: the text after the last `sep`, or all of `s`
      when `sep` does not occur. The contract pins the result down uniquely:
      a suffix free of `sep` that is either all of `s` or preceded by `sep`. */
  function LastSegment(s: string, sep: char): (r: string)
    ensures sep !in r
    ensures |r| <= |s| && r == s[|s| - |r|..]
    ensures |r| < |s| ==> s[|s| - |r| - 1] == sep
    decreases |s|
  {
    if |s| == 0 then ""
    else if s[|s| - 1] == sep then ""
    else
      var init := s[..|s| - 1];
      var r0 := LastSegment(init, sep);
      var r := r0 + [s[|s| - 1]];
      assert r == s[|s| - |r|..] by {
        assert init[|init| - |r0|..] == s[|s| - |r|..|s| - 1];
      }
      assert |r| < |s| ==> s[|s| - |r| - 1] == init[|init| - |r0| - 1];
      assert forall c :: c in r ==> c in r0 || c == s[|s| - 1];
      r
  }

  /** Whatever precedes the last `sep`, the last segment is the text after it. */
  lemma LastSegmentAfterSep(prefix: string, sep: char, suffix: string)
    requires sep !in suffix
    ensures LastSegment(prefix + [sep] + suffix, sep) == suffix
  {
    var s := prefix + [sep] + suffix;
    var r := LastSegment(s, sep);
    assert s[|s| - |suffix| - 1] == sep;
    if |r| > |suffix| {
      assert false;
    } else if |r| < |suffix| {
      assert false;
    }
    assert r == s[|s| - |suffix|..] == suffix;
  }

  /** Splits `s` at its last `sep`: the text before it and the last segment.
      Without a `sep` the text before is empty. */
  function SplitLast(s: string, sep: char): (parts: (string, string))
    ensures parts.1 == LastSegment(s, sep)
    ensures |parts.1| < |s| ==> s == parts.0 + [sep] + parts.1
    ensures |parts.1| == |s| ==> parts.0 == ""
  {
    var after := LastSegment(s, sep);
    if |after| < |s| then
      var before := s[..|s| - |after| - 1];
      assert s == before + [sep] + after;
      (before, after)
    else ("", after)
  }

  /** Splitting at the last separator undoes joining with it. */
  lemma SplitLastInverse(prefix: string, sep: char, suffix: string)
    requires sep !in suffix
    ensures SplitLast(prefix + [sep] + suffix, sep) == (prefix, suffix)
  {
    var s := prefix + [sep] + suffix;
    LastSegmentAfterSep(prefix, sep, suffix);
    assert s[..|s| - |suffix| - 1] == prefix;
  }

  function LowerChar(c: char): char {
    if 'A' <= c <= 'Z' then (c as int + 32) as char else c
  }

  /** `str.lower()` restricted to ASCII case folding. */
  function AsciiLower(s: string): (r: string)
    ensures |r| == |s|
    ensures forall i :: 0 <= i < |s| ==> r[i] == LowerChar(s[i])
  {
    seq(|s|, i requires 0 <= i < |s| => LowerChar(s[i]))
  }

  /** Text with no upper-case ASCII letter is already lower-case. */
  lemma LowerOfLower(s: string)
    requires forall i :: 0 <= i < |s| ==> !('A' <= s[i] <= 'Z')
    ensures AsciiLower(s) == s
  {
  }

  /** Lower-casing neither creates nor removes a character outside `A`..`Z`. */
  lemma LowerKeepsNonLetters(s: string, c: char)
    requires !('A' <= c <= 'Z') && !('a' <= c <= 'z')
    ensures c in AsciiLower(s) <==> c in s
  {
    var r := AsciiLower(s);
    if c in r {
      var i :| 0 <= i < |r| && r[i] == c;
      assert s[i] == c;
    }
    if c in s {
      var i :| 0 <= i < |s| && s[i] == c;
      assert r[i] == c;
    }
  }

  /** `s.encode('ascii', 'ignore').decode('ascii')`: the ASCII characters of `s`, in order. */
  function DropNonAscii(s: string): (r: string)
    ensures AllAscii(r)
    ensures |r| <= |s|
    ensures AllAscii(s) ==> r == s
    ensures forall c :: c in r <==> c in s && IsAscii(c)
    decreases |s|
  {
    if |s| == 0 then ""
    else
      var rest := DropNonAscii(s[1..]);
      assert forall c :: c in s <==> c == s[0] || c in s[1..];
      if IsAscii(s[0]) then [s[0]] + rest else rest
  }

  /** Dropping non-ASCII characters works character by character: a single
      character is kept exactly when it is ASCII. */
  lemma DropNonAsciiChar(c: char)
    ensures DropNonAscii([c]) == if IsAscii(c) then [c] else []
  {
    assert [c][1..] == [];
  }

  /** Dropping non-ASCII characters distributes over concatenation, so the
      kept characters stay in their order and each occurrence is kept. */
  lemma {:induction false} DropNonAsciiAppend(a: string, b: string)
    ensures DropNonAscii(a + b) == DropNonAscii(a) + DropNonAscii(b)
    decreases |a|
  {
    if |a| == 0 {
      assert a + b == b;
    } else {
      assert (a + b)[0] == a[0];
      assert (a + b)[1..] == a[1..] + b;
      DropNonAsciiAppend(a[1..], b);
    }
  }

  function DigitChar(d: nat): (c: char)
    requires d < 10
    ensures '0' <= c <= '9'
  {
    ('0' as int + d) as char
  }

  /** Python's `str(n)` for a non-negative integer. */
  function Decimal(n: nat): (s: string)
    ensures |s| > 0
    ensures forall i :: 0 <= i < |s| ==> '0' <= s[i] <= '9'
    ensures s[0] == '0' ==> s == "0"
    decreases n
  {
    if n < 10 then [DigitChar(n)] else Decimal(n / 10) + [DigitChar(n % 10)]
  }

  /** Reads back a string of decimal digits. */
  function DecimalValue(s: string): nat
    requires forall i :: 0 <= i < |s| ==> '0' <= s[i] <= '9'
    decreases |s|
  {
    if |s| == 0 then 0
    else 10 * DecimalValue(s[..|s| - 1]) + (s[|s| - 1] as int - '0' as int)
  }

  /** Rendering a number in decimal loses nothing: reading it back gives the number. */
  lemma {:induction false} DecimalRoundTrip(n: nat)
    ensures DecimalValue(Decimal(n)) == n
    decreases n
  {
    if n >= 10 {
      DecimalRoundTrip(n / 10);
      var s := Decimal(n);
      assert s[..|s| - 1] == Decimal(n / 10);
    }
  }
}

=== FILE: user_repository.dfy ===
/** The `users` table as a map from id to user, and the repository
    operations on it. Usernames are unique (a database constraint). */
module UserRepository {
  import opened Domain
  import Tables

  datatype UserStore = UserStore(rows: map<nat, User>, nextId: nat) {
    /** Ids start at 1 and are never reused, every row carries its own id,
        and no two rows share a username. */
    predicate Valid() {
      && 1 <= nextId
      && (forall id :: id in rows ==> 1 <= id < nextId && rows[id].id == id)
      && (forall a, b :: a in rows && b in rows && rows[a].username == rows[b].username ==> a == b)
    }
  }

  /** Some row already uses this username. */
  predicate UsernameTaken(s: UserStore, username: string) {
    exists id :: id in s.rows && s.rows[id].username == username
  }

  /** Inserts a user under the next id. The unique constraint on usernames
      means the caller must not pass a taken name. */
  function Create(s: UserStore, username: string, hashedPassword: string, role: Role, department: string): (res: (User, UserStore))
    requires s.Valid() && !UsernameTaken(s, username)
    ensures var (u, s') := res;
      && u.id !in s.rows
      && u.username == username && u.hashedPassword == hashedPassword
      && u.role == role && u.department == department
      && s'.rows.Keys == s.rows.Keys + {u.id}
      && s'.rows[u.id] == u
      && (forall k :: k in s.rows ==> s'.rows[k] == s.rows[k])
      && s'.Valid()
      && UsernameTaken(s', username)
  {
    var u := User(s.nextId, username, role, department, hashedPassword);
    var s' := UserStore(s.rows[s.nextId := u], s.nextId + 1);
    assert s'.rows[u.id].username == username;
    (u, s')
  }

  function GetById(s: UserStore, id: nat): (r: Option<User>)
    ensures r.Some? <==> id in s.rows
    ensures r.Some? ==> r.value == s.rows[id]
    ensures s.Valid() && r.Some? ==> r.value.id == id
  {
    Tables.Get(s.rows, id)
  }

  /** The unique user with that name, or None. */
  method GetByUsername(s: UserStore, username: string) returns (r: Option<User>)
    ensures r.None? <==> !UsernameTaken(s, username)
    ensures r.Some? ==> r.value in s.rows.Values && r.value.username == username
    ensures s.Valid() && r.Some? ==> forall id :: id in s.rows && s.rows[id].username == username ==> s.rows[id] == r.value
  {
    var found, ids := Tables.Select(s.rows, (u: User) => u.username == username);
    if |found| == 0 {
      r := None;
    } else {
      r := Some(found[0]);
      assert s.rows[ids[0]] == found[0];
    }
  }

  /** Every user of a department, each once. */
  method GetByDepartment(s: UserStore, department: string) returns (users: seq<User>)
    ensures forall u :: u in users ==> u in s.rows.Values && u.department == department
    ensures forall id :: id in s.rows && s.rows[id].department == department ==> s.rows[id] in users
    ensures s.Valid() ==> forall i, j :: 0 <= i < j < |users| ==> users[i].id != users[j].id
  {
    var ids;
    users, ids := Tables.Select(s.rows, (u: User) => u.department == department);
    forall u | u in users ensures u in s.rows.Values {
      var i :| 0 <= i < |users| && users[i] == u;
      assert s.rows[ids[i]] == u;
    }
  }

  /** Every user, each once. */
  method GetAll(s: UserStore) returns (users: seq<User>)
    ensures forall u :: u in users <==> u in s.rows.Values
    ensures s.Valid() ==> forall i, j :: 0 <= i < j < |users| ==> users[i].id != users[j].id
  {
    var ids;
    users, ids := Tables.Select(s.rows, (u: User) => true);
    forall u | u in users ensures u in s.rows.Values {
      var i :| 0 <= i < |users| && users[i] == u;
      assert s.rows[ids[i]] == u;
    }
    forall u | u in s.rows.Values ensures u in users {
      var id :| id in s.rows && s.rows[id] == u;
      var i :| 0 <= i < |ids| && ids[i] == id;
    }
  }

  /** Changes the role of an existing user and nothing else. */
  function UpdateRole(s: UserStore, id: nat, role: Role): (res: (User, UserStore))
    requires id in s.rows
    ensures var (u, s') := res;
      && s'.rows.Keys == s.rows.Keys && s'.nextId == s.nextId
      && s'.rows[id] == u && u.role == role
      && u.id == s.rows[id].id && u.username == s.rows[id].username
      && u.department == s.rows[id].department && u.hashedPassword == s.rows[id].hashedPassword
      && (forall k :: k in s.rows && k != id ==> s'.rows[k] == s.rows[k])
      && (s.Valid() ==> s'.Valid())
  {
    var u := s.rows[id].(role := role);
    (u, s.(rows := s.rows[id := u]))
  }
}

=== FILE: user_service.dfy ===
/** The user-administration rules: who may create, view, list and re-role users. */
module UserService {
  import opened Domain
  import UserRepository

  /** Creates a user. Only managers and admins may; the username must be
      free. `hashedPassword` is the hash of the requested password. */
  function CreateUser(s: UserRepository.UserStore, username: string, hashedPassword: string,
                      role: Role, department: string, current: User): (res: (Result<User>, UserRepository.UserStore))
    requires s.Valid()
    ensures res.1.Valid()
    ensures current.role == USER ==> res == (Err(InsufficientPermissions), s)
    ensures current.role != USER && UserRepository.UsernameTaken(s, username) ==> res == (Err(UserAlreadyExists), s)
    ensures res.0.Ok? <==> current.role != USER && !UserRepository.UsernameTaken(s, username)
    ensures res.0.Ok? ==>
              var u := res.0.value;
              && u.username == username && u.role == role && u.department == department
              && u.hashedPassword == hashedPassword
              && u.id !in s.rows
              && res.1.rows.Keys == s.rows.Keys + {u.id}
              && res.1.rows[u.id] == u
              && (forall k :: k in s.rows ==> res.1.rows[k] == s.rows[k])
  {
    if !(current.role == MANAGER || current.role == ADMIN) then
      assert current.role == USER;
      (Err(InsufficientPermissions), s)
    else if UserRepository.UsernameTaken(s, username) then (Err(UserAlreadyExists), s)
    else
      var (u, s') := UserRepository.Create(s, username, hashedPassword, role, department);
      (Ok(u), s')
  }

  /** Views one user: managers only within their department, admins anyone. */
  function GetUserById(s: UserRepository.UserStore, id: nat, current: User): (r: Result<User>)
    ensures current.role == USER ==> r == Err(InsufficientPermissions)
    ensures current.role != USER && id !in s.rows ==> r == Err(UserNotFound)
    ensures (current.role == MANAGER && id in s.rows && s.rows[id].department != current.department)
              ==> r == Err(InsufficientPermissions)
    ensures r.Ok? <==> id in s.rows && (current.role == ADMIN
                                        || (current.role == MANAGER && s.rows[id].department == current.department))
    ensures r.Ok? ==> r.value == s.rows[id]
  {
    if !(current.role == MANAGER || current.role == ADMIN) then
      assert current.role == USER;
      Err(InsufficientPermissions)
    else match UserRepository.GetById(s, id)
      case None => Err(UserNotFound)
      case Some(u) =>
        if current.role == MANAGER && u.department != current.department then Err(InsufficientPermissions)
        else Ok(u)
  }

  /** Lists users: every user for an admin, the own department for a manager. */
  method ListUsers(s: UserRepository.UserStore, current: User) returns (r: Result<seq<User>>)
    ensures current.role == USER <==> r == Err(InsufficientPermissions)
    ensures r.Err? ==> r.error == InsufficientPermissions
    ensures current.role == ADMIN ==> r.Ok? && forall u :: u in r.value <==> u in s.rows.Values
    ensures current.role == MANAGER ==>
              && r.Ok?
              && (forall u :: u in r.value ==> u in s.rows.Values && u.department == current.department)
              && (forall id :: id in s.rows && s.rows[id].department == current.department ==> s.rows[id] in r.value)
  {
    if current.role == ADMIN {
      var all := UserRepository.GetAll(s);
      r := Ok(all);
    } else if current.role == MANAGER {
      var mine := UserRepository.GetByDepartment(s, current.department);
      r := Ok(mine);
    } else {
      r := Err(InsufficientPermissions);
    }
  }

  /** Changes a user's role. Only admins may. */
  function UpdateUserRole(s: UserRepository.UserStore, id: nat, newRole: Role, current: User): (res: (Result<User>, UserRepository.UserStore))
    ensures current.role != ADMIN ==> res == (Err(InsufficientPermissions), s)
    ensures current.role == ADMIN && id !in s.rows ==> res == (Err(UserNotFound), s)
    ensures res.0.Ok? <==> current.role == ADMIN && id in s.rows
    ensures res.0.Ok? ==>
              && res.0.value == s.rows[id].(role := newRole)
              && res.1.rows.Keys == s.rows.Keys
              && res.1.rows[id] == res.0.value
              && (forall k :: k in s.rows && k != id ==> res.1.rows[k] == s.rows[k])
    ensures s.Valid() ==> res.1.Valid()
  {
    if current.role != ADMIN then (Err(InsufficientPermissions), s)
    else match UserRepository.GetById(s, id)
      case None => (Err(UserNotFound), s)
      case Some(_) =>
        var (u, s') := UserRepository.UpdateRole(s, id, newRole);
        (Ok(u), s')
  }

  /** No rule limits the role a manager gives a new user: a manager may create an admin. */
  lemma ManagerMayCreateAdmin(s: UserRepository.UserStore, username: string, hashedPassword: string,
                              department: string, manager: User)
    requires s.Valid() && manager.role == MANAGER && !UserRepository.UsernameTaken(s, username)
    ensures CreateUser(s, username, hashedPassword, ADMIN, department, manager).0.Ok?
    ensures CreateUser(s, username, hashedPassword, ADMIN, department, manager).0.value.role == ADMIN
  {
  }
}
